=== FILE: README.md ===
# To-do application: account administration, tasks and reminders

A Dafny model of the business rules of a small Django to-do application. Regular
users keep personal tasks; staff users administer accounts from a dashboard; a
management command mails reminders for tasks that fall due soon.

The database is an immutable value `Store.Db` holding three tables as maps from
primary key to record: users (`AccountModels.User`), profiles
(`AccountModels.Profile`) and tasks (`TaskModels.Task`). Every view that can
write is a pure function, or a method where it loops, from the database and the
request to a `Store.Reply`: the database afterwards plus an outcome value that
stands for the message and redirect the view produces. The read-only dashboard,
`AccountViews.Dashboard`, returns its counters and listing instead.

`Store.Valid` states three of the schema's constraints: one profile per user,
foreign keys that point at existing users, and task titles within their column
length. Every writing operation is shown to preserve it; for the reminder pass
this is `Reminders.AfterRunKeepsValid`, about the table `Reminders.Handle`
returns. The fourth constraint, the unique username column, is
`AccountModels.UsernamesUnique`. The views that add or change users (create,
sign-up, block, unblock, delete) are shown to preserve it; the other views leave
the user table as it is.

Modules follow the source files:

- `AccountModels` (accounts/models.py and Django's `User`): records, profile
  get-or-create, the `post_save` profile signal and the profile cascade.
- `TaskModels` (tasks/models.py): priorities, field defaults and the task cascade.
- `Store`: the database, `user.save()` (which fires the signal) and `user.delete()`.
- `AccountForms` (accounts/forms.py): `clean_email`, the forms' validation and both `save` paths.
- `AccountViews` (accounts/views.py): dashboard, create, block, unblock, delete and sign-up.
- `ContextProcessors` (accounts/context_processors.py): `ensure_profile`.
- `TaskForms` (tasks/forms.py): cleaning of the task form.
- `TaskViews` (tasks/views.py): task list and creation, toggle, delete.
- `Reminders` (tasks/management/commands/send_reminders.py): the reminder pass.
- `Text`, `Sorting`, `Wrappers`: string matching, ordered insertion, Option/Result.

Behaviour the code does not have, which a reader might expect:

- `unblock_user` has no self, superuser or already-active guard.
- No view assigns groups. There is no group reassignment and no last-administrator guard.
- Public sign-up puts the new user in no group.
- Administrator creation takes `is_staff` from the checkbox alone.
- `create_user` is defined twice. The second definition replaces the first, and only the second is modelled.
- The reminder command reads and writes `last_reminder_sent`, which tasks/models.py does not declare. As written, the command would therefore fail with an `AttributeError` on the first due task whose owner has an address. This was found by reading the code, not by running it. The model gives `Task` that field as an optional time, so it describes the command as it would behave once the field exists.

Choices the model makes:

- Times are whole seconds.
- New primary keys are parameters that must not already be in use.
- `iexact` and `icontains` fold ASCII letters only. SQLite's `LIKE`, which Django uses for these lookups, compares that way.
- `str.strip()` removes the characters Python's `str.isspace()` accepts.
- In the task list, a task with no due date comes before one with a due date, as SQLite sorts NULL.

## Model

| member | source | states |
|---|---|---|
| `AccountModels.GetOrCreateProfile` | accounts/context_processors.py:16 | returns the user's existing profile untouched, or adds exactly one blank profile under the fresh key; one profile per user still holds |
| `AccountModels.CreateProfileForUser` | accounts/models.py:18-21 | when the save created the user, the user has a profile afterwards; when it updated one, the profile table is unchanged; existing profiles are kept, and the only possible new profile is a blank one for that user |
| `AccountModels.RemoveProfilesOf` | accounts/models.py:9 | after a user is deleted, exactly the profiles of other users remain, unchanged, and the deleted user has none |
| `TaskModels.ParsePriority` | tasks/models.py:6-10 | a value is accepted exactly when it is the stored code of one of high, medium or low, and names that choice |
| `TaskModels.PriorityRoundTrip` | tasks/models.py:22 | every priority is read back from its stored code |
| `TaskModels.NewTask` | tasks/models.py:19-23 | a task built from the field defaults is not completed, has medium priority, no owner, no due date and no reminder, and is stamped with its creation time |
| `TaskModels.RemoveTasksOf` | tasks/models.py:12-15 | after a user is deleted, exactly the tasks not owned by that user remain, unchanged, ownerless tasks included |
| `Store.SaveUser` | accounts/models.py:18-20 | saving a user under a new key gives it a profile; every existing profile is kept unchanged, and the only possible new one is a blank profile for that user under the fresh key; saving under an existing key leaves the profiles alone; tasks are untouched and the schema's constraints are preserved |
| `Store.DeleteUser` | accounts/views.py:90 | deleting a user removes exactly that user, its profile and its tasks, and keeps the schema's constraints |
| `Text.Strip` | accounts/views.py:19 | the stripped query is a slice of the raw one with only whitespace around it, starts and ends with a non-space, and is empty exactly when the raw query is all whitespace |
| `Text.ContainsIsSlice` | accounts/views.py:22 | the substring search succeeds exactly when some slice of the text equals the needle |
| `AccountForms.CleanEmail` | accounts/forms.py:25-29 | an email is refused exactly when some user's email equals it up to case, and an accepted email is returned as typed |
| `AccountForms.SaveAdminUserCreateForm` | accounts/forms.py:31-37 | the created user carries the cleaned email, is staff exactly when the form's checkbox value is true (false when absent), and is an active non-superuser in no group |
| `AccountForms.SavePublicSignUpForm` | accounts/forms.py:41-46 | a signed-up user is active, in no group, never staff or superuser, and carries the form's username and the cleaned email |
| `AccountViews.CountUsers` | accounts/views.py:26-29 | total is the number of users; active, blocked and staff are the numbers of active, inactive and staff users; active plus blocked equals total, and staff never exceeds total |
| `AccountViews.EmptyQueryMatchesAll` | accounts/views.py:21-22 | every user matches the empty search, so skipping the filter for an empty query changes nothing |
| `AccountViews.Dashboard` | accounts/views.py:18-33 | lists each user at most once, newest join date first; with a blank stripped query every user, otherwise exactly the users whose username or email contains the query up to case; the counters add up |
| `AccountViews.Block` | accounts/views.py:52-66 | not found for an unknown key; refused for the acting user and for a superuser; informational for an inactive user; otherwise only the target's active flag turns false; every refusal leaves the database unchanged |
| `AccountViews.BlockTwice` | accounts/views.py:60-62 | blocking twice gives the database of blocking once, and a second block after a successful one reports already blocked |
| `AccountViews.BlockMovesOneCount` | accounts/views.py:63-64 | a successful block lowers the active count by one, raises the blocked count by one and keeps the total |
| `AccountViews.Unblock` | accounts/views.py:71-76 | any existing user, the acting user and superusers included, ends active with nothing else changed; an unknown key changes nothing |
| `AccountViews.UnblockTwice` | accounts/views.py:72-74 | unblocking again changes nothing and reports the same, and unblocking never refuses an existing user |
| `AccountViews.DeleteAccount` | accounts/views.py:81-92 | not found for an unknown key; refused for the acting user and for a superuser with nothing changed; otherwise exactly the target goes, with its profile and tasks, and every other user, profile and task stays unchanged |
| `AccountViews.SuperusersAreImmune` | accounts/views.py:57-88 | blocking or deleting a superuser leaves the database unchanged whoever acts |
| `AccountViews.CreateUser` | accounts/views.py:96-107 | GET changes nothing; a POST is rejected, with nothing changed, exactly when its email is in use up to case, its username is taken, or it fails the other `UserCreationForm` checks, and the errors name exactly the failures; otherwise exactly one user is added, the one the form's `save` builds: the form's username, email and staff flag, active, in no group, joined now, not a superuser; it gets a profile, and every existing profile is kept unchanged; usernames stay unique |
| `AccountViews.SignUp` | accounts/views.py:110-124 | a signed-in visitor changes nothing; a POST is rejected, with nothing changed, exactly when its email is in use up to case, its username is taken, or it fails the other `UserCreationForm` checks, and the errors name exactly the failures; otherwise exactly one account is added, the one the form's `save` builds: the form's username and email, active, in no group, joined now, neither staff nor superuser; it gets a profile, every existing profile is kept unchanged, and the visitor is signed in as it; usernames stay unique |
| `AccountViews.SameEmailRule` | accounts/forms.py:56-60 | sign-up refuses an email exactly when administrator creation refuses it; with the same username and the same verdict on the other fields, both reject exactly the same submissions with the same errors |
| `AccountViews.CreatedEmailIsTaken` | accounts/forms.py:27 | after a creation, every address equal to the new email up to case is refused and the new username is taken; creation keeps emails unique up to case |
| `ContextProcessors.EnsureProfile` | accounts/context_processors.py:6-21 | an anonymous request gets no profile and is not admin, and nothing changes; a signed-in user is admin exactly when superuser or in the group "admin" and ends with a profile; a user who already has one changes nothing; otherwise the only new profile is a blank one for that user under the fresh key; users and tasks never change |
| `ContextProcessors.EnsureProfileTwice` | accounts/context_processors.py:16 | a second call creates no profile and returns the same context |
| `TaskForms.CleanTask` | tasks/forms.py:4-11 | a submission is accepted exactly when its stripped title is non-empty, at most 200 characters and free of null characters, and its priority names a choice; an accepted one yields that title, the due date and the named priority; a rejected one carries at least one error |
| `TaskViews.TaskRankOrdersAsListed` | tasks/views.py:16 | the sort key compares tasks exactly as open-before-completed, then due date |
| `TaskViews.ListTasks` | tasks/views.py:16 | lists exactly the user's tasks, each once, open ones before completed ones and each group by due date |
| `TaskViews.AddTask` | tasks/views.py:18-24 | an invalid form changes nothing; a valid one adds exactly one task under the fresh key, owned by the signed-in user, not completed, with the cleaned title, due date and priority |
| `TaskViews.AddTaskKeepsValid` | tasks/views.py:20-22 | a created task keeps the schema's constraints |
| `TaskViews.TaskList` | tasks/views.py:9-26 | a task is created exactly for a POST with a valid form; otherwise nothing changes and the page lists exactly the user's tasks, each once, open before completed and then by due date, and shows no errors unless a form was submitted |
| `TaskViews.Toggle` | tasks/views.py:30-41 | non-POST requests change nothing; a task that is missing or not the user's is not found with nothing changed; otherwise only that task's completed flag flips |
| `TaskViews.ToggleTwice` | tasks/views.py:39-40 | toggling twice restores the database |
| `TaskViews.DeleteTask` | tasks/views.py:45-53 | non-POST requests change nothing; a task that is missing or not the user's is not found with nothing changed; otherwise exactly that task is removed |
| `TaskViews.OthersTasksUntouched` | tasks/views.py:38 | toggling and deleting never change or remove a task the user does not own |
| `Reminders.Handle` | tasks/management/commands/send_reminders.py:17-56 | the table afterwards is the reference outcome `AfterRun`, and the count is the number of open, due-in-window tasks with a mailable owner not reminded within the window, failed sends included |
| `Reminders.DryRunChangesNothing` | tasks/management/commands/send_reminders.py:44-45 | a dry run modifies no task |
| `Reminders.RunOnlyStampsReminders` | tasks/management/commands/send_reminders.py:47-53 | a run changes no field but the last reminder time, and changes it only to now, for a processed task whose send succeeded outside a dry run |
| `Reminders.AfterRunKeepsValid` | tasks/management/commands/send_reminders.py:47-51 | stamping reminders changes no owner or title, so the table `Reminders.Handle` returns, which is `AfterRun`, keeps the schema's constraints |
| `Reminders.SecondRunSendsNothing` | tasks/management/commands/send_reminders.py:37-38 | with a positive window, after a run whose sends all succeeded, a second run at the same instant processes nothing and changes nothing |
| `Reminders.DefaultSecondRunSendsNothing` | tasks/management/commands/send_reminders.py:14 | with the default 24-hour window and no dry run, after a run whose sends all succeeded, a second run at the same instant processes nothing and changes nothing |

## Left out

- Routing (accounts/urls.py, tasks/urls.py, todo/urls.py) only wires URLs to views. tasks/urls.py names two views, `delete_task_ajax` and `undo_create`, that tasks/views.py does not define.
- Templates, `messages`, redirects and response objects: each view's effect is reduced to an outcome value.
- `staff_member_required`, `login_required`, `require_POST` and `require_http_methods` are Django's. The model covers only the requests these decorators let through. For example, `Block`, `Unblock` and `DeleteAccount` model only the POST path, and `Dashboard` only the request of a staff member.
- Django's `UserCreationForm` also checks the username's format and the two passwords, runs the password validators, and hashes the password. The model reduces those checks to one verdict carried by the form, `accountFieldsOk`, and stores no credentials. Username uniqueness is modelled.
- `AccountViews.CreateUser` and `AccountViews.SignUp` compare usernames exactly, as the unique column does. Django 4.2 and later also refuse, in `UserCreationForm`, a username that differs from a stored one only in case. The model counts such a clash among the checks `accountFieldsOk` stands for.
- `EmailField` format validation and whitespace stripping are Django's. The forms here receive the email already cleaned by the field.
- Parsing the `due_date` input is Django's. The model receives the due date as seconds.
- The login page, `StyledAuthenticationForm` and the forms' `__init__` methods only set styling and placeholders.
- `auth_login` after sign-up is Django's. The sign-up outcome only names the account the visitor is signed in as.
- Reminder mail text, `send_mail`, stdout and stderr are I/O. Each send is an oracle: the set `failing` lists the tasks whose send raises.
- `timezone.now()` is the parameter `now`.
- The first, shadowed definition of `create_user` is never reachable.
- The avatar upload is not modelled. The profile only records an optional stored path.
- Database transactions and concurrent requests are not modelled.
- Group reassignment and a last-administrator guard do not exist in the code.
- `AccountViews.Dashboard`: the database breaks ties between equal join dates in an order it does not specify. The contract states only the join-date order, not which of two equal users comes first.
- `TaskViews.ListTasks`: ties between equal `(completed, due_date)` keys are likewise left unordered. NULL due dates sort first, as in SQLite; PostgreSQL would sort them last.
- `Text.LowerChar`: folds ASCII letters only. This matches SQLite's `LIKE`. On PostgreSQL, `iexact` and `icontains` would also fold non-ASCII letters.
- `Reminders.Handle`: `now + timedelta(hours=hours)` raises `OverflowError` before any task is read when the window ends outside the range of Python's `datetime`, for example `--hours 100000000`. The model's seconds are unbounded, so it has no such error path. `Handle` returns a result for every window, and `SecondRunSendsNothing` covers every positive window.

=== FILE: account_forms.dfy ===
/** The two account forms: the administrator's create form, which also offers the
    staff flag, and the public sign-up form, which does not. Both extend Django's
    `UserCreationForm`, so both refuse a username already taken, and both refuse an
    email address already in use, ignoring case. The rest of `UserCreationForm`'s
    validation (username format, the two passwords, the password validators) is
    one verdict carried by the form; the passwords and their hashing are not
    modelled. */
module AccountForms {
  import opened Wrappers
  import opened Text
  import opened AccountModels

  datatype FormError =
    | DuplicateEmail        // `clean_email`
    | DuplicateUsername     // the unique `username` column, checked by the model form
    | AccountFieldsInvalid  // the rest of `UserCreationForm`'s checks

  /** The fields of the administrator's create form, after field-level cleaning;
      `isStaff` is `None` when the cleaned data holds no value for the checkbox, and
      `accountFieldsOk` is the verdict of `UserCreationForm`'s checks other than
      the exact username clash the unique column catches. */
  datatype AdminUserCreateForm =
    AdminUserCreateForm(username: string, email: string, isStaff: Option<bool>, accountFieldsOk: bool)

  /** The fields of the public sign-up form, after field-level cleaning. */
  datatype PublicSignUpForm = PublicSignUpForm(username: string, email: string, accountFieldsOk: bool)

  /** Some stored user has exactly `username`. */
  predicate UsernameInUse(users: UserStore, username: string) {
    exists uid :: uid in users && users[uid].username == username
  }

  /** Some stored user has `email`, compared without regard to case. */
  predicate EmailInUse(users: UserStore, email: string) {
    exists uid :: uid in users && EqualIgnoringCase(users[uid].email, email)
  }

  /** `clean_email`, the same on both forms: the address is refused exactly when some
      user already has it up to case, and is otherwise accepted exactly as typed. */
  function CleanEmail(users: UserStore, email: string): (r: Result<string, FormError>)
    ensures r.Failure? <==> exists uid :: uid in users && Lower(users[uid].email) == Lower(email)
    ensures r.Success? ==> r.value == email
  {
    if EmailInUse(users, email) then Failure(DuplicateEmail) else Success(email)
  }

  /** `form.is_valid()` for either account form: every field is cleaned, so a
      submission collects each error that applies, and is valid when it has none. */
  function AccountFormErrors(users: UserStore, username: string, email: string, accountFieldsOk: bool): set<FormError> {
    (if CleanEmail(users, email).Failure? then {DuplicateEmail} else {})
    + (if UsernameInUse(users, username) then {DuplicateUsername} else {})
    + (if accountFieldsOk then {} else {AccountFieldsInvalid})
  }

  /** `AdminUserCreateForm.save`: the new user carries the cleaned email and the staff
      flag the form gave, false when it gave none; it is never a superuser. */
  function SaveAdminUserCreateForm(form: AdminUserCreateForm, cleanedEmail: string, now: int): (u: User)
    ensures u.email == cleanedEmail && u.username == form.username
    ensures u.isStaff <==> form.isStaff == Some(true)
    ensures u.isActive && !u.isSuperuser && u.groups == {} && u.dateJoined == now
  {
    NewUser(form.username, cleanedEmail, now).(isStaff := form.isStaff.GetOr(false))
  }

  /** `PublicSignUpForm.save`: the form has no staff field, so the new user is an
      ordinary active account. */
  function SavePublicSignUpForm(form: PublicSignUpForm, cleanedEmail: string, now: int): (u: User)
    ensures u.email == cleanedEmail && u.username == form.username
    ensures u.isActive && !u.isStaff && !u.isSuperuser && u.groups == {} && u.dateJoined == now
  {
    NewUser(form.username, cleanedEmail, now)
  }
}

=== FILE: account_models.dfy ===
/** The account records: Django's built-in `User` (the fields the application reads
    and writes) and the application's `Profile`, one-to-one with a user and created by
    a `post_save` signal handler. */
module AccountModels {
  import opened Wrappers

  /** A row of the auth user table; the primary key is the key of the store. */
  datatype User = User(
    username: string,
    email: string,
    isActive: bool,     // false means blocked
    isStaff: bool,
    isSuperuser: bool,
    groups: set<string>,  // names of the groups the user belongs to
    dateJoined: int)      // seconds

  type UserStore = map<int, User>

  /** The name of the group whose members are administrators. */
  const AdminGroup: string := "admin"

  /** A user built the way Django's `User` model builds one: active, neither staff nor
      superuser, in no group. */
  function NewUser(username: string, email: string, now: int): (u: User)
    ensures u.isActive && !u.isStaff && !u.isSuperuser && u.groups == {}
    ensures u.username == username && u.email == email && u.dateJoined == now
  {
    User(username, email, true, false, false, {}, now)
  }

  /** The unique constraint on the username column: no two users share one. */
  ghost predicate UsernamesUnique(users: UserStore) {
    forall a, b :: a in users && b in users && a != b ==> users[a].username != users[b].username
  }

  /** A row of the profile table; `user` is the one-to-one key to a user. */
  datatype Profile = Profile(
    user: int,
    fullName: string,
    bio: string,
    avatar: Option<string>,  // stored path of the uploaded image
    timezone: string)

  type ProfileStore = map<int, Profile>

  /** The profile `get_or_create(user=...)` creates: blank optional fields. */
  function BlankProfile(uid: int): Profile {
    Profile(uid, "", "", None, "")
  }

  /** The uniqueness the one-to-one field puts on `Profile.user`. */
  ghost predicate AtMostOneProfileEach(profiles: ProfileStore) {
    forall p, q :: p in profiles && q in profiles && profiles[p].user == profiles[q].user ==> p == q
  }

  predicate HasProfile(profiles: ProfileStore, uid: int) {
    exists p :: p in profiles && profiles[p].user == uid
  }

  /** The primary key of the profile of `uid`, if it has one. */
  function ProfileOf(profiles: ProfileStore, uid: int): (r: Option<int>)
    requires AtMostOneProfileEach(profiles)
    ensures r.Some? <==> HasProfile(profiles, uid)
    ensures r.Some? ==> r.value in profiles && profiles[r.value].user == uid
  {
    if HasProfile(profiles, uid) then
      var p :| p in profiles && profiles[p].user == uid;
      Some(p)
    else
      None
  }

  /** `Profile.objects.get_or_create(user=uid)`: the existing profile of `uid`, or a
      blank one stored under the fresh key `newKey`. Returns the store and the key. */
  function GetOrCreateProfile(profiles: ProfileStore, uid: int, newKey: int): (r: (ProfileStore, int))
    requires AtMostOneProfileEach(profiles)
    requires newKey !in profiles
    ensures r.1 in r.0 && r.0[r.1].user == uid
    ensures HasProfile(profiles, uid) ==> r.0 == profiles
    ensures !HasProfile(profiles, uid) ==> r.1 == newKey && r.0 == profiles[newKey := BlankProfile(uid)]
    ensures AtMostOneProfileEach(r.0)
  {
    match ProfileOf(profiles, uid)
    case Some(p) => (profiles, p)
    case None => (profiles[newKey := BlankProfile(uid)], newKey)
  }

  /** The `post_save` receiver `create_profile_for_user`: when the save inserted the
      user, make sure it has a profile; when it updated an existing user, do nothing. */
  function CreateProfileForUser(profiles: ProfileStore, uid: int, created: bool, newKey: int): (r: ProfileStore)
    requires AtMostOneProfileEach(profiles)
    requires newKey !in profiles
    ensures !created ==> r == profiles
    ensures created ==> HasProfile(r, uid)
    ensures AtMostOneProfileEach(r)
    ensures forall p :: p in profiles ==> p in r && r[p] == profiles[p]
    ensures forall p :: p in r && p !in profiles ==> p == newKey && r[p] == BlankProfile(uid)
  {
    if created then GetOrCreateProfile(profiles, uid, newKey).0 else profiles
  }

  /** Deleting a user cascades to its profile: the profiles that remain are exactly
      those of other users. */
  function RemoveProfilesOf(profiles: ProfileStore, uid: int): (r: ProfileStore)
    ensures forall p :: p in r <==> p in profiles && profiles[p].user != uid
    ensures forall p :: p in r ==> r[p] == profiles[p]
    ensures !HasProfile(r, uid)
  {
    map p | p in profiles && profiles[p].user != uid :: profiles[p]
  }
}

=== FILE: account_views.dfy ===
/** The administration views: the dashboard (user counts and a search), creating,
    blocking, unblocking and deleting accounts, and the public sign-up page. The
    model covers only the requests the access decorators let through: an acting
    user who passes `staff_member_required`, and the HTTP methods
    `require_POST` and `require_http_methods` admit. Messages and redirects are
    reduced to an outcome value. */
module AccountViews {
  import opened Wrappers
  import opened Text
  import opened Sorting
  import opened AccountModels
  import opened TaskModels
  import opened AccountForms
  import opened Store
  import opened Http

  /** What block, unblock and delete report. */
  datatype Outcome =
    | NotFound          // no user has the key: 404
    | SelfDenied        // the target is the acting user
    | SuperuserRefused  // the target is a superuser
    | AlreadyBlocked    // informational: the target was already inactive
    | Done

  /** `before` and `after` agree except that the user `target` has `isActive == active`. */
  ghost predicate OnlyActiveChanged(before: Db, after: Db, target: int, active: bool) {
    && target in before.users
    && after.users.Keys == before.users.Keys
    && after.users[target] == before.users[target].(isActive := active)
    && (forall uid :: uid in before.users && uid != target ==> after.users[uid] == before.users[uid])
    && after.profiles == before.profiles
    && after.tasks == before.tasks
  }

  function SetActive(users: UserStore, uid: int, active: bool): UserStore
    requires uid in users
  {
    users[uid := users[uid].(isActive := active)]
  }

  // ---------------------------------------------------------------- dashboard

  datatype Counts = Counts(total: nat, active: nat, blocked: nat, staff: nat)

  function ActiveUsers(users: UserStore): set<int> {
    set uid | uid in users && users[uid].isActive
  }

  function BlockedUsers(users: UserStore): set<int> {
    set uid | uid in users && !users[uid].isActive
  }

  function StaffUsers(users: UserStore): set<int> {
    set uid | uid in users && users[uid].isStaff
  }

  /** The dashboard's four counters. Every user is either active or blocked, so the
      two counts add up to the total. */
  function CountUsers(users: UserStore): (c: Counts)
    ensures c.total == |users|
    ensures c.active + c.blocked == c.total
    ensures c.staff == |StaffUsers(users)| && c.staff <= c.total
    ensures c.active == |ActiveUsers(users)| && c.blocked == |BlockedUsers(users)|
  {
    var active := ActiveUsers(users);
    var blocked := BlockedUsers(users);
    assert active + blocked == users.Keys && active * blocked == {};
    var staff := StaffUsers(users);
    assert staff + (users.Keys - staff) == users.Keys && staff * (users.Keys - staff) == {};
    Counts(|users|, |active|, |blocked|, |staff|)
  }

  /** The search the dashboard applies for a non-empty query. */
  predicate MatchesQuery(u: User, q: string) {
    ContainsIgnoringCase(u.username, q) || ContainsIgnoringCase(u.email, q)
  }

  /** Every user matches the empty query, so the dashboard's `if q:` only saves work. */
  lemma EmptyQueryMatchesAll(u: User)
    ensures MatchesQuery(u, [])
  {
    ContainsEmpty(Lower(u.username));
  }

  /** The dashboard: the counters, and the users listed, newest first. The query is
      stripped of surrounding whitespace; when nothing is left every user is listed,
      otherwise exactly the users whose username or email contains it, ignoring case. */
  method Dashboard(users: UserStore, rawQuery: string) returns (counts: Counts, listed: seq<int>)
    ensures counts.total == |users| && counts.active + counts.blocked == counts.total
    ensures counts.active == |ActiveUsers(users)| && counts.staff == |StaffUsers(users)|
    ensures forall i :: 0 <= i < |listed| ==> listed[i] in users
    ensures Distinct(listed)
    ensures Strip(rawQuery) == [] ==> forall uid :: uid in listed <==> uid in users
    ensures Strip(rawQuery) != [] ==>
              forall uid :: uid in listed <==> uid in users && MatchesQuery(users[uid], Strip(rawQuery))
    ensures forall i, j :: 0 <= i < j < |listed| ==> users[listed[i]].dateJoined >= users[listed[j]].dateJoined
  {
    var q := Strip(rawQuery);
    var newestFirst := map uid | uid in users :: Rank(-users[uid].dateJoined, 0, 0);
    listed := [];
    var rest := users.Keys;
    while rest != {}
      invariant rest <= users.Keys
      invariant SortedBy(listed, newestFirst)
      invariant Distinct(listed)
      invariant forall uid :: uid in listed <==>
                  uid in users && uid !in rest && (q == [] || MatchesQuery(users[uid], q))
      decreases |rest|
    {
      var uid := Pick(rest);
      if q == [] || MatchesQuery(users[uid], q) {
        listed := Insert(listed, uid, newestFirst);
      }
      rest := rest - {uid};
    }
    counts := CountUsers(users);
  }

  // ---------------------------------------------------------------- block / unblock / delete

  /** `block_user`: refused for a missing user, for the acting user and for a
      superuser; a no-op for a user already blocked; otherwise the target, and only
      its `is_active` flag, becomes false. */
  function Block(db: Db, actor: int, target: int): (r: Reply<Outcome>)
    requires IsStaffMember(db.users, actor)
    ensures r.outcome == NotFound <==> target !in db.users
    ensures target in db.users && target == actor ==> r.outcome == SelfDenied
    ensures target in db.users && target != actor && db.users[target].isSuperuser ==> r.outcome == SuperuserRefused
    ensures r.outcome == AlreadyBlocked <==>
              target in db.users && target != actor && !db.users[target].isSuperuser && !db.users[target].isActive
    ensures r.outcome == Done <==>
              target in db.users && target != actor && !db.users[target].isSuperuser && db.users[target].isActive
    ensures r.outcome != Done ==> r.db == db
    ensures r.outcome == Done ==> OnlyActiveChanged(db, r.db, target, false)
    ensures Valid(db) ==> Valid(r.db)
    ensures UsernamesUnique(db.users) ==> UsernamesUnique(r.db.users)
  {
    if target !in db.users then Reply(db, NotFound)
    else if target == actor then Reply(db, SelfDenied)
    else if db.users[target].isSuperuser then Reply(db, SuperuserRefused)
    else if !db.users[target].isActive then Reply(db, AlreadyBlocked)
    else Reply(db.(users := SetActive(db.users, target, false)), Done)
  }

  /** Blocking twice leaves the database as blocking once; the second request is
      reported as already blocked. */
  lemma BlockTwice(db: Db, actor: int, target: int)
    requires IsStaffMember(db.users, actor)
    ensures var first := Block(db, actor, target);
            IsStaffMember(first.db.users, actor) &&
            var second := Block(first.db, actor, target);
            second.db == first.db &&
            (first.outcome == Done ==> second.outcome == AlreadyBlocked)
  {
  }

  /** A successful block moves exactly one user from the active to the blocked count. */
  lemma BlockMovesOneCount(db: Db, actor: int, target: int)
    requires IsStaffMember(db.users, actor)
    requires Block(db, actor, target).outcome == Done
    ensures var before := CountUsers(db.users);
            var after := CountUsers(Block(db, actor, target).db.users);
            after.active == before.active - 1 && after.blocked == before.blocked + 1 && after.total == before.total
  {
    var after := Block(db, actor, target).db.users;
    assert ActiveUsers(after) == ActiveUsers(db.users) - {target};
    assert BlockedUsers(after) == BlockedUsers(db.users) + {target};
  }

  /** `unblock_user`: no self or superuser guard and no check of the current state;
      any existing target, and only its `is_active` flag, becomes true. */
  function Unblock(db: Db, actor: int, target: int): (r: Reply<Outcome>)
    requires IsStaffMember(db.users, actor)
    ensures r.outcome == NotFound <==> target !in db.users
    ensures r.outcome == NotFound || r.outcome == Done
    ensures r.outcome == NotFound ==> r.db == db
    ensures r.outcome == Done ==> OnlyActiveChanged(db, r.db, target, true)
    ensures Valid(db) ==> Valid(r.db)
    ensures UsernamesUnique(db.users) ==> UsernamesUnique(r.db.users)
  {
    if target !in db.users then Reply(db, NotFound)
    else Reply(db.(users := SetActive(db.users, target, true)), Done)
  }

  /** Unblocking is idempotent, and it succeeds on the acting user and on superusers. */
  lemma UnblockTwice(db: Db, actor: int, target: int)
    requires IsStaffMember(db.users, actor)
    ensures var first := Unblock(db, actor, target);
            IsStaffMember(first.db.users, actor) &&
            Unblock(first.db, actor, target) == first
    ensures target in db.users ==> Unblock(db, actor, target).outcome == Done
  {
  }

  /** `delete_user`: refused for a missing user, for the acting user and for a
      superuser; otherwise exactly the target is removed, with its profile and tasks. */
  function DeleteAccount(db: Db, actor: int, target: int): (r: Reply<Outcome>)
    requires IsStaffMember(db.users, actor)
    ensures r.outcome == NotFound <==> target !in db.users
    ensures r.outcome == SelfDenied <==> target in db.users && target == actor
    ensures r.outcome == SuperuserRefused <==> target in db.users && target != actor && db.users[target].isSuperuser
    ensures r.outcome != AlreadyBlocked
    ensures r.outcome != Done ==> r.db == db
    ensures r.outcome == Done ==>
              && r.db.users.Keys == db.users.Keys - {target}
              && (forall uid :: uid in r.db.users ==> r.db.users[uid] == db.users[uid])
              && !HasProfile(r.db.profiles, target)
              && (forall k :: k in r.db.tasks ==> r.db.tasks[k].owner != Some(target))
              && (forall k :: k in db.tasks && db.tasks[k].owner != Some(target) ==> k in r.db.tasks)
    ensures r.outcome == Done ==>
              r.db.profiles == RemoveProfilesOf(db.profiles, target) && r.db.tasks == RemoveTasksOf(db.tasks, target)
    ensures Valid(db) ==> Valid(r.db)
    ensures UsernamesUnique(db.users) ==> UsernamesUnique(r.db.users)
  {
    if target !in db.users then Reply(db, NotFound)
    else if target == actor then Reply(db, SelfDenied)
    else if db.users[target].isSuperuser then Reply(db, SuperuserRefused)
    else Reply(DeleteUser(db, target), Done)
  }

  /** No administration view ever changes or removes a superuser, whoever acts. */
  lemma SuperusersAreImmune(db: Db, actor: int, target: int)
    requires IsStaffMember(db.users, actor)
    requires target in db.users && db.users[target].isSuperuser
    ensures Block(db, actor, target).db == db
    ensures DeleteAccount(db, actor, target).db == db
  {
  }

  // ---------------------------------------------------------------- account creation

  datatype CreateOutcome = ShowForm | Rejected(errors: set<FormError>) | Created(uid: int)

  /** `create_user` (the second, effective definition): a GET shows the form; a POST
      whose email is in use up to case, whose username is taken, or which fails
      `UserCreationForm`'s other checks is sent back with its errors and changes
      nothing; any other POST stores the new user, which gets a profile. */
  function CreateUser(db: Db, actor: int, verb: Method, form: AdminUserCreateForm,
                      newUserKey: int, newProfileKey: int, now: int): (r: Reply<CreateOutcome>)
    requires IsStaffMember(db.users, actor)
    requires verb != OtherMethod
    requires AtMostOneProfileEach(db.profiles)
    requires newUserKey !in db.users && newProfileKey !in db.profiles
    ensures verb == Get ==> r == Reply(db, ShowForm)
    ensures verb == Post ==>
              (r.outcome.Rejected? <==>
                 EmailInUse(db.users, form.email) || UsernameInUse(db.users, form.username) || !form.accountFieldsOk)
    ensures r.outcome.Rejected? ==>
              && r.db == db
              && (DuplicateEmail in r.outcome.errors <==> EmailInUse(db.users, form.email))
              && (DuplicateUsername in r.outcome.errors <==> UsernameInUse(db.users, form.username))
              && (AccountFieldsInvalid in r.outcome.errors <==> !form.accountFieldsOk)
    ensures verb == Post && !r.outcome.Rejected? ==>
              && r.outcome == Created(newUserKey)
              && r.db.users.Keys == db.users.Keys + {newUserKey}
              && (forall uid :: uid in db.users ==> r.db.users[uid] == db.users[uid])
              && r.db.users[newUserKey].email == form.email
              && r.db.users[newUserKey] == SaveAdminUserCreateForm(form, form.email, now)
              && r.db.users[newUserKey].username == form.username
              && (r.db.users[newUserKey].isStaff <==> form.isStaff == Some(true))
              && !r.db.users[newUserKey].isSuperuser
              && HasProfile(r.db.profiles, newUserKey)
              && (forall p :: p in db.profiles ==> p in r.db.profiles && r.db.profiles[p] == db.profiles[p])
              && r.db.tasks == db.tasks
    ensures Valid(db) ==> Valid(r.db)
    ensures UsernamesUnique(db.users) ==> UsernamesUnique(r.db.users)
  {
    if verb == Get then Reply(db, ShowForm)
    else
      var errors := AccountFormErrors(db.users, form.username, form.email, form.accountFieldsOk);
      if errors != {} then Reply(db, Rejected(errors))
      else
        Reply(SaveUser(db, newUserKey, SaveAdminUserCreateForm(form, form.email, now), newProfileKey), Created(newUserKey))
  }

  datatype SignUpOutcome = AlreadySignedIn | ShowSignUpForm | SignUpRejected(errors: set<FormError>) | SignedUp(uid: int)

  /** `signup`: a signed-in visitor is turned away; a GET shows the form; a POST whose
      email is in use up to case, whose username is taken, or which fails
      `UserCreationForm`'s other checks changes nothing; any other POST stores a new
      ordinary account, with a profile, and signs the visitor in as it. */
  function SignUp(db: Db, current: Option<int>, verb: Method, form: PublicSignUpForm,
                  newUserKey: int, newProfileKey: int, now: int): (r: Reply<SignUpOutcome>)
    requires verb != OtherMethod
    requires AtMostOneProfileEach(db.profiles)
    requires newUserKey !in db.users && newProfileKey !in db.profiles
    ensures current.Some? ==> r == Reply(db, AlreadySignedIn)
    ensures current.None? && verb == Get ==> r == Reply(db, ShowSignUpForm)
    ensures current.None? && verb == Post ==>
              (r.outcome.SignUpRejected? <==>
                 EmailInUse(db.users, form.email) || UsernameInUse(db.users, form.username) || !form.accountFieldsOk)
    ensures r.outcome.SignUpRejected? ==>
              && r.db == db
              && (DuplicateEmail in r.outcome.errors <==> EmailInUse(db.users, form.email))
              && (DuplicateUsername in r.outcome.errors <==> UsernameInUse(db.users, form.username))
              && (AccountFieldsInvalid in r.outcome.errors <==> !form.accountFieldsOk)
    ensures current.None? && verb == Post && !r.outcome.SignUpRejected? ==>
              && r.outcome == SignedUp(newUserKey)
              && r.db.users.Keys == db.users.Keys + {newUserKey}
              && (forall uid :: uid in db.users ==> r.db.users[uid] == db.users[uid])
              && r.db.users[newUserKey].email == form.email
              && r.db.users[newUserKey] == SavePublicSignUpForm(form, form.email, now)
              && r.db.users[newUserKey].username == form.username
              && !r.db.users[newUserKey].isStaff && !r.db.users[newUserKey].isSuperuser
              && HasProfile(r.db.profiles, newUserKey)
              && (forall p :: p in db.profiles ==> p in r.db.profiles && r.db.profiles[p] == db.profiles[p])
              && r.db.tasks == db.tasks
    ensures Valid(db) ==> Valid(r.db)
    ensures UsernamesUnique(db.users) ==> UsernamesUnique(r.db.users)
  {
    if current.Some? then Reply(db, AlreadySignedIn)
    else if verb == Get then Reply(db, ShowSignUpForm)
    else
      var errors := AccountFormErrors(db.users, form.username, form.email, form.accountFieldsOk);
      if errors != {} then Reply(db, SignUpRejected(errors))
      else
        Reply(SaveUser(db, newUserKey, SavePublicSignUpForm(form, form.email, now), newProfileKey), SignedUp(newUserKey))
  }

  /** Sign-up and administrator creation refuse exactly the same addresses, and, for
      the same username and the same verdict on the other fields, exactly the same
      submissions, with the same errors. */
  lemma SameEmailRule(db: Db, actor: int, adminForm: AdminUserCreateForm, signUpForm: PublicSignUpForm,
                      newUserKey: int, newProfileKey: int, now: int)
    requires IsStaffMember(db.users, actor)
    requires AtMostOneProfileEach(db.profiles)
    requires newUserKey !in db.users && newProfileKey !in db.profiles
    requires adminForm.email == signUpForm.email
    ensures var created := CreateUser(db, actor, Post, adminForm, newUserKey, newProfileKey, now).outcome;
            var signedUp := SignUp(db, None, Post, signUpForm, newUserKey, newProfileKey, now).outcome;
            && (created.Rejected? && DuplicateEmail in created.errors <==>
                signedUp.SignUpRejected? && DuplicateEmail in signedUp.errors)
            && (adminForm.username == signUpForm.username && adminForm.accountFieldsOk == signUpForm.accountFieldsOk ==>
                  (created.Rejected? <==> signedUp.SignUpRejected?)
                  && (created.Rejected? ==> created.errors == signedUp.errors))
  {
  }

  /** No two users share an email address up to case. */
  ghost predicate EmailsUnique(users: UserStore) {
    forall a, b :: a in users && b in users && a != b ==> !EqualIgnoringCase(users[a].email, users[b].email)
  }

  /** Once an account is created, any address equal to its email up to case is in use:
      the account is found by a case-insensitive lookup and a second attempt is
      refused, as is a second attempt with the same username. Creation also keeps
      emails unique when they were. */
  lemma CreatedEmailIsTaken(db: Db, actor: int, form: AdminUserCreateForm, other: string,
                            newUserKey: int, newProfileKey: int, now: int)
    requires IsStaffMember(db.users, actor)
    requires AtMostOneProfileEach(db.profiles)
    requires newUserKey !in db.users && newProfileKey !in db.profiles
    requires CreateUser(db, actor, Post, form, newUserKey, newProfileKey, now).outcome.Created?
    requires EqualIgnoringCase(other, form.email)
    ensures var after := CreateUser(db, actor, Post, form, newUserKey, newProfileKey, now).db;
            CleanEmail(after.users, other) == Failure(DuplicateEmail)
    ensures var after := CreateUser(db, actor, Post, form, newUserKey, newProfileKey, now).db;
            UsernameInUse(after.users, form.username)
    ensures EmailsUnique(db.users) ==>
              EmailsUnique(CreateUser(db, actor, Post, form, newUserKey, newProfileKey, now).db.users)
  {
    var after := CreateUser(db, actor, Post, form, newUserKey, newProfileKey, now).db;
    assert newUserKey in after.users && EqualIgnoringCase(after.users[newUserKey].email, other);
    assert after.users[newUserKey].username == form.username;
  }
}

=== FILE: context_processors.dfy ===
/** The template context processor `ensure_profile`: for a signed-in user it makes
    sure a profile exists and tells templates whether the user is an administrator. */
module ContextProcessors {
  import opened Wrappers
  import opened AccountModels
  import opened Store

  /** The two context entries: the key of the user's profile, and `is_admin`. */
  datatype Context = Context(profile: Option<int>, isAdmin: bool)

  /** A superuser, or a member of the group named "admin". */
  predicate IsAdmin(u: User) {
    u.isSuperuser || AdminGroup in u.groups
  }

  /** `ensure_profile`. `requestUser` is the signed-in user, `None` for an anonymous
      visitor; `newProfileKey` is the key the database would give a new profile. */
  function EnsureProfile(db: Db, requestUser: Option<int>, newProfileKey: int): (r: Reply<Context>)
    requires requestUser.Some? ==> requestUser.value in db.users
    requires AtMostOneProfileEach(db.profiles)
    requires newProfileKey !in db.profiles
    ensures requestUser.None? ==> r == Reply(db, Context(None, false))
    ensures requestUser.Some? ==>
              var u := db.users[requestUser.value];
              && (r.outcome.isAdmin <==> u.isSuperuser || "admin" in u.groups)
              && r.outcome.profile.Some?
              && r.outcome.profile.value in r.db.profiles
              && r.db.profiles[r.outcome.profile.value].user == requestUser.value
    ensures r.db.users == db.users && r.db.tasks == db.tasks
    ensures forall p :: p in db.profiles ==> p in r.db.profiles && r.db.profiles[p] == db.profiles[p]
    ensures forall p :: p in r.db.profiles && p !in db.profiles ==> p == newProfileKey
    ensures requestUser.Some? && HasProfile(db.profiles, requestUser.value) ==> r.db == db
    ensures forall p :: p in r.db.profiles && p !in db.profiles ==>
              requestUser.Some? && r.db.profiles[p] == BlankProfile(requestUser.value)
    ensures AtMostOneProfileEach(r.db.profiles)
    ensures Valid(db) ==> Valid(r.db)
  {
    match requestUser
    case None => Reply(db, Context(None, false))
    case Some(uid) =>
      var (profiles, p) := GetOrCreateProfile(db.profiles, uid, newProfileKey);
      Reply(db.(profiles := profiles), Context(Some(p), IsAdmin(db.users[uid])))
  }

  /** A second call, whatever key it is offered, creates nothing and answers the same. */
  lemma EnsureProfileTwice(db: Db, requestUser: Option<int>, key1: int, key2: int)
    requires requestUser.Some? ==> requestUser.value in db.users
    requires AtMostOneProfileEach(db.profiles)
    requires key1 !in db.profiles
    requires key2 !in EnsureProfile(db, requestUser, key1).db.profiles
    ensures var first := EnsureProfile(db, requestUser, key1);
            EnsureProfile(first.db, requestUser, key2) == first
  {
    var first := EnsureProfile(db, requestUser, key1);
    if requestUser.Some? {
      assert HasProfile(first.db.profiles, requestUser.value);
    }
  }
}

=== FILE: reminders.dfy ===
/** The `send_reminders` management command: one pass over the tasks due within the
    look-ahead window, mailing each task's owner unless the owner has no address or
    the task was reminded within the window. Times are whole seconds; the clock is a
    parameter, and mail delivery is an oracle naming the tasks whose send fails. */
module Reminders {
  import opened Wrappers
  import opened Sorting
  import opened AccountModels
  import opened TaskModels
  import opened Store

  /** The default of `--hours`. */
  const DefaultHours: int := 24

  const SecondsPerHour: int := 3600

  /** The command line: `--hours` and `--dry-run`. */
  datatype Options = Options(hours: int, dryRun: bool)

  /** The options of a plain `send_reminders` call. */
  function DefaultOptions(): Options {
    Options(DefaultHours, false)
  }

  /** The queryset: an open task with a due date no earlier than `now` and no later
      than `hours` hours after it. */
  predicate IsDue(t: Task, now: int, hours: int) {
    !t.completed && t.dueDate.Some? && now <= t.dueDate.value <= now + hours * SecondsPerHour
  }

  /** The task has an owner and the owner has a non-empty email address. */
  predicate HasRecipient(users: UserStore, t: Task) {
    t.owner.Some? && t.owner.value in users && users[t.owner.value].email != []
  }

  /** A reminder went out less than `hours` hours before `now`. */
  predicate RecentlyReminded(t: Task, now: int, hours: int) {
    t.lastReminderSent.Some? && now - t.lastReminderSent.value < hours * SecondsPerHour
  }

  /** The tasks the loop gets past both `continue`s for, and so counts. */
  predicate Processed(users: UserStore, t: Task, now: int, hours: int) {
    IsDue(t, now, hours) && HasRecipient(users, t) && !RecentlyReminded(t, now, hours)
  }

  function ProcessedKeys(db: Db, now: int, hours: int): set<int> {
    set k | k in db.tasks && Processed(db.users, db.tasks[k], now, hours)
  }

  /** The task `k` after a run: a processed task whose mail was sent for real and did
      not fail records `now` as its last reminder; any other task is as it was. */
  function AfterRunOf(users: UserStore, k: int, t: Task, now: int, opts: Options, failing: set<int>): Task {
    if !opts.dryRun && k !in failing && Processed(users, t, now, opts.hours)
    then t.(lastReminderSent := Some(now))
    else t
  }

  /** The reference outcome of a run, task by task. */
  function AfterRun(db: Db, now: int, opts: Options, failing: set<int>): TaskStore {
    map k | k in db.tasks :: AfterRunOf(db.users, k, db.tasks[k], now, opts, failing)
  }

  /** `Command.handle`: returns the task table afterwards and the number reported as
      processed, which counts failed and dry-run sends alike. */
  method Handle(db: Db, now: int, opts: Options, failing: set<int>) returns (tasks: TaskStore, count: nat)
    ensures tasks == AfterRun(db, now, opts, failing)
    ensures count == |ProcessedKeys(db, now, opts.hours)|
  {
    tasks := db.tasks;
    count := 0;
    ghost var counted: set<int> := {};
    var rest := db.tasks.Keys;
    while rest != {}
      invariant rest <= db.tasks.Keys && tasks.Keys == db.tasks.Keys
      invariant forall k :: k in tasks ==>
                  tasks[k] == if k in rest then db.tasks[k] else AfterRunOf(db.users, k, db.tasks[k], now, opts, failing)
      invariant forall k :: k in counted <==> k in db.tasks && k !in rest && Processed(db.users, db.tasks[k], now, opts.hours)
      invariant count == |counted|
      decreases |rest|
    {
      var k := Pick(rest);
      assert tasks[k] == db.tasks[k] && k !in counted;
      var sent;
      tasks, sent := Visit(db.users, tasks, k, now, opts, failing);
      if sent {
        counted := counted + {k};
        count := count + 1;
      }
      rest := rest - {k};
    }
    LoopExit(db, now, opts, failing, tasks, counted);
  }

  /** When the loop has visited every task, the table is the reference outcome and
      the counted keys are exactly the processed ones. */
  lemma LoopExit(db: Db, now: int, opts: Options, failing: set<int>, tasks: TaskStore, counted: set<int>)
    requires tasks.Keys == db.tasks.Keys
    requires forall k :: k in tasks ==> tasks[k] == AfterRunOf(db.users, k, db.tasks[k], now, opts, failing)
    requires forall k :: k in counted <==> k in db.tasks && Processed(db.users, db.tasks[k], now, opts.hours)
    ensures tasks == AfterRun(db, now, opts, failing)
    ensures counted == ProcessedKeys(db, now, opts.hours)
  {
    var processed := ProcessedKeys(db, now, opts.hours);
    assert forall k :: k in counted <==> k in processed;
    var after := AfterRun(db, now, opts, failing);
    assert tasks.Keys == after.Keys;
    assert forall k :: k in tasks ==> tasks[k] == after[k];
  }

  /** Stamping reminders keeps every task's owner and title, so the schema's
      constraints still hold after a run: with `Handle`'s result equal to `AfterRun`,
      the reminder pass preserves `Valid`. */
  lemma AfterRunKeepsValid(db: Db, now: int, opts: Options, failing: set<int>)
    requires Valid(db)
    ensures Valid(db.(tasks := AfterRun(db, now, opts, failing)))
  {
    var after := AfterRun(db, now, opts, failing);
    forall k | k in after
      ensures after[k].owner == db.tasks[k].owner && after[k].title == db.tasks[k].title
    {
    }
  }

  /** One turn of the loop, on the task `k`: skip it when it is not due, when nobody
      can be mailed or when it was reminded recently; otherwise attempt the send,
      stamp the task when the send happened and succeeded, and report that it counts. */
  method Visit(users: UserStore, tasks: TaskStore, k: int, now: int, opts: Options, failing: set<int>)
    returns (tasks': TaskStore, counted: bool)
    requires k in tasks
    ensures counted <==> Processed(users, tasks[k], now, opts.hours)
    ensures tasks' == tasks[k := AfterRunOf(users, k, tasks[k], now, opts, failing)]
  {
    var t := tasks[k];
    tasks' := tasks;
    counted := false;
    if IsDue(t, now, opts.hours) && HasRecipient(users, t) && !RecentlyReminded(t, now, opts.hours) {
      if !opts.dryRun && k !in failing {
        tasks' := tasks[k := t.(lastReminderSent := Some(now))];
      }
      counted := true;
    }
  }

  /** A dry run changes no task. */
  lemma DryRunChangesNothing(db: Db, now: int, hours: int, failing: set<int>)
    ensures AfterRun(db, now, Options(hours, true), failing) == db.tasks
  {
  }

  /** A run touches nothing but `last_reminder_sent`, which it can only set to `now`,
      and only on a processed task whose send did not fail. */
  lemma RunOnlyStampsReminders(db: Db, now: int, opts: Options, failing: set<int>, k: int)
    requires k in db.tasks
    ensures var t := AfterRun(db, now, opts, failing)[k];
            && t == db.tasks[k].(lastReminderSent := t.lastReminderSent)
            && (t.lastReminderSent != db.tasks[k].lastReminderSent ==>
                  t.lastReminderSent == Some(now) && k !in failing && !opts.dryRun
                  && k in ProcessedKeys(db, now, opts.hours))
  {
  }

  /** When every send succeeded, running again at the same instant with a positive
      window processes no task and changes nothing: each task just mailed now counts
      as recently reminded, and every other task is as it was. */
  lemma {:induction false} SecondRunSendsNothing(db: Db, now: int, hours: int, failing: set<int>, failingAgain: set<int>)
    requires hours > 0
    requires ProcessedKeys(db, now, hours) !! failing
    ensures var db2 := db.(tasks := AfterRun(db, now, Options(hours, false), failing));
            && ProcessedKeys(db2, now, hours) == {}
            && AfterRun(db2, now, Options(hours, false), failingAgain) == db2.tasks
  {
    var db2 := db.(tasks := AfterRun(db, now, Options(hours, false), failing));
    forall k | k in db2.tasks
      ensures !Processed(db2.users, db2.tasks[k], now, hours)
    {
      if Processed(db.users, db.tasks[k], now, hours) {
        assert k in ProcessedKeys(db, now, hours);
        assert db2.tasks[k].lastReminderSent == Some(now);
      } else {
        assert db2.tasks[k] == db.tasks[k];
      }
    }
  }

  /** Run twice with the default options: the default window is positive, so when
      every send of the first run succeeded the second run mails nobody. */
  lemma DefaultSecondRunSendsNothing(db: Db, now: int, failing: set<int>, failingAgain: set<int>)
    requires ProcessedKeys(db, now, DefaultOptions().hours) !! failing
    ensures var db2 := db.(tasks := AfterRun(db, now, DefaultOptions(), failing));
            && ProcessedKeys(db2, now, DefaultOptions().hours) == {}
            && AfterRun(db2, now, DefaultOptions(), failingAgain) == db2.tasks
  {
    SecondRunSendsNothing(db, now, DefaultHours, failing, failingAgain);
  }
}

=== FILE: sorting.dfy ===
/** Insertion into a sequence of primary keys kept in the order of a sort key; the
    listings use it to reproduce the ORM's `order_by`. */
module Sorting {

  /** A sort key, compared field by field. */
  datatype Rank = Rank(major: int, minor: int, last: int)

  predicate RankLe(x: Rank, y: Rank) {
    || x.major < y.major
    || (x.major == y.major && (x.minor < y.minor || (x.minor == y.minor && x.last <= y.last)))
  }

  /** Every element of `s` has a key in `rank`, and keys never decrease along `s`. */
  ghost predicate SortedBy(s: seq<int>, rank: map<int, Rank>) {
    && (forall i :: 0 <= i < |s| ==> s[i] in rank)
    && (forall i, j :: 0 <= i < j < |s| ==> RankLe(rank[s[i]], rank[s[j]]))
  }

  predicate Distinct<T(==)>(s: seq<T>) {
    forall i, j :: 0 <= i < j < |s| ==> s[i] != s[j]
  }

  /** `s` with `x` placed before the first element whose key is not below its own. */
  function Insert(s: seq<int>, x: int, rank: map<int, Rank>): (r: seq<int>)
    requires SortedBy(s, rank) && x in rank
    ensures SortedBy(r, rank)
    ensures |r| == |s| + 1
    ensures forall y :: y in r <==> y in s || y == x
    ensures Distinct(s) && x !in s ==> Distinct(r)
    decreases |s|
  {
    if |s| == 0 || RankLe(rank[x], rank[s[0]]) then
      [x] + s
    else
      var rest := Insert(s[1..], x, rank);
      assert forall j :: 0 <= j < |rest| ==> rest[j] in rest;
      [s[0]] + rest
  }

  /** Some element of a non-empty set; the listings visit a table's keys in this order. */
  method Pick<T>(s: set<T>) returns (x: T)
    requires s != {}
    ensures x in s
  {
    x :| x in s;
  }
}

=== FILE: store.dfy ===
/** The database the views act on: the user, profile and task tables, the integrity
    the schema maintains across them, and the two writes that cross tables (saving a
    user, which fires the profile signal, and deleting one, which cascades). */
module Store {
  import opened AccountModels
  import opened TaskModels

  datatype Db = Db(users: UserStore, profiles: ProfileStore, tasks: TaskStore)

  /** What a view returns: the database after the request and what the user is told. */
  datatype Reply<+O> = Reply(db: Db, outcome: O)

  /** The constraints of the schema: one profile per user, foreign keys that point at
      existing users, and column bounds on tasks. */
  ghost predicate Valid(db: Db) {
    && AtMostOneProfileEach(db.profiles)
    && (forall p :: p in db.profiles ==> db.profiles[p].user in db.users)
    && (forall k :: k in db.tasks && db.tasks[k].owner.Some? ==> db.tasks[k].owner.value in db.users)
    && (forall k :: k in db.tasks ==> WellFormed(db.tasks[k]))
  }

  /** The user the `staff_member_required` decorator lets through. */
  predicate IsStaffMember(users: UserStore, uid: int) {
    uid in users && users[uid].isActive && users[uid].isStaff
  }

  /** `user.save()` for the user stored under `uid`: an insert when the key is new, an
      update otherwise; the `post_save` signal then runs with `created` set accordingly. */
  function SaveUser(db: Db, uid: int, u: User, newProfileKey: int): (r: Db)
    requires AtMostOneProfileEach(db.profiles)
    requires newProfileKey !in db.profiles
    ensures r.users == db.users[uid := u] && r.tasks == db.tasks
    ensures uid !in db.users ==> HasProfile(r.profiles, uid)
    ensures forall p :: p in db.profiles ==> p in r.profiles && r.profiles[p] == db.profiles[p]
    ensures forall p :: p in r.profiles && p !in db.profiles ==> p == newProfileKey && r.profiles[p] == BlankProfile(uid)
    ensures uid in db.users ==> r.profiles == db.profiles
    ensures Valid(db) ==> Valid(r)
  {
    Db(db.users[uid := u], CreateProfileForUser(db.profiles, uid, uid !in db.users, newProfileKey), db.tasks)
  }

  /** `user.delete()`: the user row goes, and with it, through `on_delete=CASCADE`, its
      profile and every task it owns. Nothing else changes. */
  function DeleteUser(db: Db, uid: int): (r: Db)
    ensures r.users == db.users - {uid}
    ensures r.profiles == RemoveProfilesOf(db.profiles, uid)
    ensures r.tasks == RemoveTasksOf(db.tasks, uid)
    ensures Valid(db) ==> Valid(r)
  {
    Db(db.users - {uid}, RemoveProfilesOf(db.profiles, uid), RemoveTasksOf(db.tasks, uid))
  }
}

/** The part of an HTTP request the views branch on. */
module Http {
  datatype Method = Get | Post | OtherMethod
}

=== FILE: task_forms.dfy ===
/** `TaskForm`, the model form over `title`, `due_date` and `priority`. It has no
    owner field: the view sets the owner. */
module TaskForms {
  import opened Wrappers
  import opened Text
  import opened TaskModels

  /** The submitted fields; the due date is already parsed into seconds. */
  datatype TaskInput = TaskInput(title: string, dueDate: Option<int>, priority: string)

  /** The cleaned fields of a valid submission. */
  datatype TaskFields = TaskFields(title: string, dueDate: Option<int>, priority: Priority)

  /** The character Django's `ProhibitNullCharactersValidator` refuses. */
  const NullChar: char := '\0'

  datatype FieldError = TitleRequired | TitleTooLong | TitleHasNullCharacter | PriorityRequired | PriorityInvalid

  /** The errors of a submission. The title field strips surrounding whitespace and
      is required; a present title must be at most 200 characters and, like every
      Django `CharField`, free of null characters. The priority must be one of the
      choices. */
  function TaskErrors(input: TaskInput): set<FieldError> {
    var title := Strip(input.title);
    (if title == [] then {TitleRequired} else {})
    + (if |title| > TitleMaxLength then {TitleTooLong} else {})
    + (if NullChar in title then {TitleHasNullCharacter} else {})
    + (if input.priority == [] then {PriorityRequired}
       else if ParsePriority(input.priority).None? then {PriorityInvalid}
       else {})
  }

  /** `form.is_valid()` and `cleaned_data`: a submission is accepted exactly when it has
      no error, and then yields a non-empty title of at most 200 characters without a
      null character and the priority the submitted value names. */
  function CleanTask(input: TaskInput): (r: Result<TaskFields, set<FieldError>>)
    ensures r.Failure? ==> r.error != {} && r.error == TaskErrors(input)
    ensures r.Success? ==>
              && 0 < |r.value.title| <= TitleMaxLength
              && r.value.title == Strip(input.title)
              && NullChar !in r.value.title
              && r.value.dueDate == input.dueDate
              && PriorityCode(r.value.priority) == input.priority
    ensures r.Success? <==>
              Strip(input.title) != [] && |Strip(input.title)| <= TitleMaxLength
              && NullChar !in Strip(input.title)
              && exists p: Priority :: PriorityCode(p) == input.priority
  {
    var errors := TaskErrors(input);
    if errors != {} then Failure(errors)
    else
      var title := Strip(input.title);
      assert title != [];
      Success(TaskFields(title, input.dueDate, ParsePriority(input.priority).value))
  }
}

=== FILE: task_models.dfy ===
/** The `Task` model: a to-do item with a nullable owner, a three-way priority and the
    `last_reminder_sent` time the reminder command reads and writes. */
module TaskModels {
  import opened Wrappers

  datatype Priority = High | Medium | Low

  /** The value stored in the `priority` column for each choice. */
  function PriorityCode(p: Priority): string {
    match p
    case High => "high"
    case Medium => "medium"
    case Low => "low"
  }

  /** The choice a stored or submitted value names, if any. */
  function ParsePriority(s: string): (r: Option<Priority>)
    ensures r.Some? ==> PriorityCode(r.value) == s
    ensures r.None? ==> forall p: Priority :: PriorityCode(p) != s
  {
    if s == "high" then Some(High)
    else if s == "medium" then Some(Medium)
    else if s == "low" then Some(Low)
    else None
  }

  /** Each choice is read back from its stored value. */
  lemma PriorityRoundTrip(p: Priority)
    ensures ParsePriority(PriorityCode(p)) == Some(p)
  {
  }

  /** The declared `max_length` of `title`. */
  const TitleMaxLength: nat := 200

  datatype Task = Task(
    owner: Option<int>,            // user key; None for rows not yet given an owner
    title: string,
    completed: bool,
    dueDate: Option<int>,          // seconds
    priority: Priority,
    createdAt: int,                // seconds
    lastReminderSent: Option<int>) // seconds

  type TaskStore = map<int, Task>

  /** What the column declarations promise of a row. */
  predicate WellFormed(t: Task) {
    |t.title| <= TitleMaxLength
  }

  /** A task as the model's field defaults build it: not completed, medium priority,
      no owner, no due date, never reminded; `created_at` is the insertion time. */
  function NewTask(title: string, now: int): (t: Task)
    ensures !t.completed && t.priority == Medium
    ensures t.owner == None && t.dueDate == None && t.lastReminderSent == None
    ensures t.title == title && t.createdAt == now
  {
    Task(None, title, false, None, Medium, now, None)
  }

  /** Deleting a user cascades to its tasks: the tasks that remain are exactly those
      not owned by that user, ownerless ones included. */
  function RemoveTasksOf(tasks: TaskStore, uid: int): (r: TaskStore)
    ensures forall k :: k in r <==> k in tasks && tasks[k].owner != Some(uid)
    ensures forall k :: k in r ==> r[k] == tasks[k]
  {
    map k | k in tasks && tasks[k].owner != Some(uid) :: tasks[k]
  }
}

=== FILE: task_views.dfy ===
/** The task views: the list page, which also takes the creation form, and the
    toggle and delete actions. Every query is scoped to the signed-in user, which
    `login_required` guarantees exists; a task of someone else is reported as not
    found. */
module TaskViews {
  import opened Wrappers
  import opened Text
  import opened Sorting
  import opened TaskModels
  import opened TaskForms
  import opened Store
  import opened Http

  predicate Owns(tasks: TaskStore, user: int, key: int) {
    key in tasks && tasks[key].owner == Some(user)
  }

  // ---------------------------------------------------------------- listing order

  /** An unknown due date sorts before every known one, as SQLite orders NULL. */
  predicate DueNoLater(a: Option<int>, b: Option<int>) {
    a.None? || (b.Some? && a.value <= b.value)
  }

  /** `order_by("completed", "due_date")`: open tasks first, then by due date. */
  predicate ListedBefore(a: Task, b: Task) {
    (!a.completed && b.completed) || (a.completed == b.completed && DueNoLater(a.dueDate, b.dueDate))
  }

  /** The sort key `order_by("completed", "due_date")` compares. */
  function TaskRank(t: Task): Rank {
    Rank(if t.completed then 1 else 0,
         if t.dueDate.None? then 0 else 1,
         if t.dueDate.Some? then t.dueDate.value else 0)
  }

  /** The sort key orders tasks exactly as `ListedBefore` does. */
  lemma TaskRankOrdersAsListed(a: Task, b: Task)
    ensures RankLe(TaskRank(a), TaskRank(b)) <==> ListedBefore(a, b)
  {
  }

  /** The tasks of `user`, open ones first and each group by due date. */
  method ListTasks(tasks: TaskStore, user: int) returns (listed: seq<int>)
    ensures forall i :: 0 <= i < |listed| ==> listed[i] in tasks
    ensures forall k :: k in listed <==> Owns(tasks, user, k)
    ensures Distinct(listed)
    ensures forall i, j :: 0 <= i < j < |listed| ==> ListedBefore(tasks[listed[i]], tasks[listed[j]])
  {
    var order := map k | k in tasks :: TaskRank(tasks[k]);
    listed := [];
    var rest := tasks.Keys;
    while rest != {}
      invariant rest <= tasks.Keys
      invariant SortedBy(listed, order)
      invariant Distinct(listed)
      invariant forall k :: k in listed <==> Owns(tasks, user, k) && k !in rest
      decreases |rest|
    {
      var k := Pick(rest);
      if Owns(tasks, user, k) {
        listed := Insert(listed, k, order);
      }
      rest := rest - {k};
    }
    forall i, j | 0 <= i < j < |listed|
      ensures ListedBefore(tasks[listed[i]], tasks[listed[j]])
    {
      TaskRankOrdersAsListed(tasks[listed[i]], tasks[listed[j]]);
    }
  }

  // ---------------------------------------------------------------- creation

  /** What a task created by `user` from the submission `input` at time `now` holds:
      the owner is the user, the other fields come from the cleaned form or from the
      model's defaults. */
  ghost predicate BuiltFrom(t: Task, user: int, input: TaskInput, now: int) {
    && t.owner == Some(user)
    && !t.completed && t.lastReminderSent == None && t.createdAt == now
    && t.title == Strip(input.title) && 0 < |t.title| <= TitleMaxLength
    && t.dueDate == input.dueDate && PriorityCode(t.priority) == input.priority
  }

  datatype AddOutcome = Added(key: int) | Invalid(errors: set<FieldError>)

  /** A valid submission to `task_list`: a task built from the form and the field
      defaults, owned by the signed-in user whatever was submitted, stored under the
      fresh key. An invalid one changes nothing. */
  function AddTask(db: Db, user: int, input: TaskInput, newKey: int, now: int): (r: Reply<AddOutcome>)
    requires user in db.users
    requires newKey !in db.tasks
    ensures r.outcome.Invalid? <==> CleanTask(input).Failure?
    ensures r.outcome.Invalid? ==> r.db == db && r.outcome.errors != {}
    ensures r.outcome.Added? ==>
              && r.outcome.key == newKey
              && newKey in r.db.tasks
              && r.db.tasks == db.tasks[newKey := r.db.tasks[newKey]]
              && BuiltFrom(r.db.tasks[newKey], user, input, now)
    ensures r.db.users == db.users && r.db.profiles == db.profiles
  {
    match CleanTask(input)
    case Failure(errors) => Reply(db, Invalid(errors))
    case Success(f) =>
      var t := NewTask(f.title, now).(dueDate := f.dueDate, priority := f.priority, owner := Some(user));
      Reply(db.(tasks := db.tasks[newKey := t]), Added(newKey))
  }

  /** A created task keeps the schema's constraints: its owner exists and its title fits. */
  lemma AddTaskKeepsValid(db: Db, user: int, input: TaskInput, newKey: int, now: int)
    requires user in db.users
    requires newKey !in db.tasks
    requires Valid(db)
    ensures Valid(AddTask(db, user, input, newKey, now).db)
  {
    var r := AddTask(db, user, input, newKey, now);
    if r.outcome.Added? {
      assert WellFormed(r.db.tasks[newKey]);
    }
  }

  datatype TaskListOutcome =
    | AddedTask(key: int)                                 // redirect after a valid POST
    | Listing(listed: seq<int>, errors: set<FieldError>)  // the page, with any form errors

  /** `task_list`. `input` is the submitted form, `None` when the request carries no
      form data, in which case the form is unbound and cannot be valid. */
  method TaskList(db: Db, user: int, verb: Method, input: Option<TaskInput>, newKey: int, now: int)
    returns (r: Reply<TaskListOutcome>)
    requires user in db.users
    requires newKey !in db.tasks
    ensures r.outcome.AddedTask? <==> verb == Post && input.Some? && CleanTask(input.value).Success?
    ensures r.outcome.AddedTask? ==> r == Reply(AddTask(db, user, input.value, newKey, now).db, AddedTask(newKey))
    ensures r.outcome.Listing? ==>
              && r.db == db
              && (forall k :: k in r.outcome.listed <==> Owns(db.tasks, user, k))
              && Distinct(r.outcome.listed)
              && (forall i :: 0 <= i < |r.outcome.listed| ==> r.outcome.listed[i] in db.tasks)
              && (forall i, j :: 0 <= i < j < |r.outcome.listed| ==>
                    ListedBefore(db.tasks[r.outcome.listed[i]], db.tasks[r.outcome.listed[j]]))
              && (verb != Post || input.None? ==> r.outcome.errors == {})
  {
    if verb == Post && input.Some? {
      var added := AddTask(db, user, input.value, newKey, now);
      if added.outcome.Added? {
        return Reply(added.db, AddedTask(newKey));
      }
      var listed := ListTasks(db.tasks, user);
      return Reply(db, Listing(listed, added.outcome.errors));
    }
    var listed := ListTasks(db.tasks, user);
    r := Reply(db, Listing(listed, {}));
  }

  // ---------------------------------------------------------------- toggle / delete

  datatype TaskOutcome = Ignored | TaskNotFound | TaskDone

  /** `toggle_task`: anything but a POST changes nothing; a task that does not exist
      or is not the user's is not found; otherwise only its `completed` flag flips. */
  function Toggle(db: Db, user: int, verb: Method, key: int): (r: Reply<TaskOutcome>)
    requires user in db.users
    ensures verb != Post ==> r == Reply(db, Ignored)
    ensures verb == Post && !Owns(db.tasks, user, key) ==> r == Reply(db, TaskNotFound)
    ensures verb == Post && Owns(db.tasks, user, key) ==>
              && r.outcome == TaskDone
              && r.db.tasks.Keys == db.tasks.Keys
              && r.db.tasks[key] == db.tasks[key].(completed := !db.tasks[key].completed)
              && (forall k :: k in db.tasks && k != key ==> r.db.tasks[k] == db.tasks[k])
    ensures r.db.users == db.users && r.db.profiles == db.profiles
    ensures Valid(db) ==> Valid(r.db)
  {
    if verb != Post then Reply(db, Ignored)
    else if !Owns(db.tasks, user, key) then Reply(db, TaskNotFound)
    else
      var t := db.tasks[key];
      Reply(db.(tasks := db.tasks[key := t.(completed := !t.completed)]), TaskDone)
  }

  /** Toggling twice restores the database. */
  lemma ToggleTwice(db: Db, user: int, verb: Method, key: int)
    requires user in db.users
    ensures Toggle(Toggle(db, user, verb, key).db, user, verb, key).db == db
  {
    var once := Toggle(db, user, verb, key).db;
    if verb == Post && Owns(db.tasks, user, key) {
      assert Owns(once.tasks, user, key);
      assert once.tasks[key := db.tasks[key]] == db.tasks;
    }
  }

  /** `delete_task`: anything but a POST changes nothing; a task that does not exist
      or is not the user's is not found; otherwise exactly that task is removed. */
  function DeleteTask(db: Db, user: int, verb: Method, key: int): (r: Reply<TaskOutcome>)
    requires user in db.users
    ensures verb != Post ==> r == Reply(db, Ignored)
    ensures verb == Post && !Owns(db.tasks, user, key) ==> r == Reply(db, TaskNotFound)
    ensures verb == Post && Owns(db.tasks, user, key) ==>
              && r.outcome == TaskDone
              && r.db.tasks.Keys == db.tasks.Keys - {key}
              && (forall k :: k in r.db.tasks ==> r.db.tasks[k] == db.tasks[k])
    ensures r.db.users == db.users && r.db.profiles == db.profiles
    ensures Valid(db) ==> Valid(r.db)
  {
    if verb != Post then Reply(db, Ignored)
    else if !Owns(db.tasks, user, key) then Reply(db, TaskNotFound)
    else Reply(db.(tasks := db.tasks - {key}), TaskDone)
  }

  /** Toggling and deleting never change or remove a task the signed-in user does not own. */
  lemma OthersTasksUntouched(db: Db, user: int, verb: Method, key: int, k: int)
    requires user in db.users
    requires k in db.tasks && db.tasks[k].owner != Some(user)
    ensures k in Toggle(db, user, verb, key).db.tasks && Toggle(db, user, verb, key).db.tasks[k] == db.tasks[k]
    ensures k in DeleteTask(db, user, verb, key).db.tasks && DeleteTask(db, user, verb, key).db.tasks[k] == db.tasks[k]
  {
    if Owns(db.tasks, user, key) {
      assert k != key;
    }
  }
}

=== FILE: text.dfy ===
/** String helpers shared by the views and forms: Python's `str.strip()`, and the
    case-insensitive comparisons behind the ORM lookups `iexact` and `icontains`. */
module Text {

  /** Python's `str.isspace()`: the characters `str.strip()` removes. */
  predicate IsSpace(c: char) {
    || c == ' '
    || ('\t' <= c <= '\r')
    || ('\U{1c}' <= c <= '\U{1f}')
    || c == '\U{85}' || c == '\U{a0}' || c == '\U{1680}'
    || ('\U{2000}' <= c <= '\U{200a}')
    || c == '\U{2028}' || c == '\U{2029}' || c == '\U{202f}' || c == '\U{205f}' || c == '\U{3000}'
  }

  /** `s` with its leading whitespace removed: a suffix of `s`. */
  function TrimStart(s: string): (r: string)
    ensures |r| <= |s| && r == s[|s| - |r|..]
    ensures forall i :: 0 <= i < |s| - |r| ==> IsSpace(s[i])
    ensures |r| > 0 ==> !IsSpace(r[0])
  {
    if |s| > 0 && IsSpace(s[0]) then TrimStart(s[1..]) else s
  }

  /** `s` with its trailing whitespace removed: a prefix of `s`. */
  function TrimEnd(s: string): (r: string)
    ensures |r| <= |s| && r == s[..|r|]
    ensures forall i :: |r| <= i < |s| ==> IsSpace(s[i])
    ensures |r| > 0 ==> !IsSpace(r[|r| - 1])
  {
    if |s| > 0 && IsSpace(s[|s| - 1]) then TrimEnd(s[..|s| - 1]) else s
  }

  /** `r` is the slice of `s` starting at `lo`, and everything of `s` around it is whitespace. */
  ghost predicate WhitespaceAround(s: string, lo: int, r: string) {
    && 0 <= lo <= |s| - |r|
    && r == s[lo..lo + |r|]
    && (forall i :: 0 <= i < lo ==> IsSpace(s[i]))
    && (forall i :: lo + |r| <= i < |s| ==> IsSpace(s[i]))
  }

  /** Python's `s.strip()`: the slice of `s` left once whitespace is removed from
      both ends. It is empty exactly when `s` is all whitespace. */
  function Strip(s: string): (r: string)
    ensures |r| > 0 ==> !IsSpace(r[0]) && !IsSpace(r[|r| - 1])
    ensures exists lo :: WhitespaceAround(s, lo, r)
    ensures r == [] <==> forall i :: 0 <= i < |s| ==> IsSpace(s[i])
  {
    var t := TrimStart(s);
    var r := TrimEnd(t);
    var lo := |s| - |t|;
    assert r == s[lo..lo + |r|];
    assert forall i :: lo + |r| <= i < |s| ==> s[i] == t[i - lo];
    assert WhitespaceAround(s, lo, r);
    r
  }

  /** ASCII upper case to lower case; every other character is its own lower case.
      SQLite's `LIKE`, which Django uses for `iexact` and `icontains`, folds case this way. */
  function LowerChar(c: char): char {
    if 'A' <= c <= 'Z' then (c as int + 32) as char else c
  }

  function Lower(s: string): string {
    seq(|s|, i requires 0 <= i < |s| => LowerChar(s[i]))
  }

  /** The ORM lookup `a__iexact=b`. */
  predicate EqualIgnoringCase(a: string, b: string) {
    Lower(a) == Lower(b)
  }

  predicate IsPrefix(p: string, s: string) {
    |p| <= |s| && s[..|p|] == p
  }

  /** Substring search: `needle` occurs in `s` at some position. */
  predicate Contains(s: string, needle: string)
    decreases |s|
  {
    IsPrefix(needle, s) || (|s| > 0 && Contains(s[1..], needle))
  }

  /** `needle` occurs in `s` starting at position `i`. */
  ghost predicate OccursAt(s: string, needle: string, i: int) {
    0 <= i <= |s| - |needle| && s[i..i + |needle|] == needle
  }

  /** The search finds `needle` exactly when some slice of `s` equals it. */
  lemma {:induction false} ContainsIsSlice(s: string, needle: string)
    ensures Contains(s, needle) <==> exists i :: OccursAt(s, needle, i)
    decreases |s|
  {
    if IsPrefix(needle, s) {
      assert OccursAt(s, needle, 0);
    } else if |s| > 0 {
      ContainsIsSlice(s[1..], needle);
      if exists i :: OccursAt(s, needle, i) {
        var i :| OccursAt(s, needle, i);
        assert i != 0;
        assert s[1..][i - 1..i - 1 + |needle|] == s[i..i + |needle|];
        assert OccursAt(s[1..], needle, i - 1);
      }
      if exists j :: OccursAt(s[1..], needle, j) {
        var j :| OccursAt(s[1..], needle, j);
        assert s[1..][j..j + |needle|] == s[j + 1..j + 1 + |needle|];
        assert OccursAt(s, needle, j + 1);
      }
    }
  }

  /** Every string contains the empty string. */
  lemma {:induction false} ContainsEmpty(s: string)
    ensures Contains(s, [])
  {
    assert IsPrefix([], s);
  }

  /** The ORM lookup `s__icontains=needle`. */
  predicate ContainsIgnoringCase(s: string, needle: string) {
    Contains(Lower(s), Lower(needle))
  }
}

=== FILE: wrappers.dfy ===
/** Option and Result, the two failure-carrying shapes the model uses in place of
    Python's `None` and of raised validation errors. */
module Wrappers {

  datatype Option<+T> = None | Some(value: T) {

    /** The wrapped value, or `default` when there is none (Python's `dict.get(key, default)`). */
    function GetOr(default: T): T {
      match this
      case Some(v) => v
      case None => default
    }
  }

  datatype Result<+R, +E> = Success(value: R) | Failure(error: E)
}
